=== FILE: README.md ===
# Portfolio page carousel and image modal, modelled in Dafny

The portfolio page's script (`scripts/main.js`) has two small state machines.
This project models both as immutable state records with one pure transition
function per event:

- **The card carousel** (`setupSlider`), used for the projects and activities
  sections. It keeps a current page index within the reachable pages for the
  number of cards and the number shown at once. The page moves through the next
  and previous buttons, the indicator dots, a drag gesture and window resizes.
  From that state it renders the track offset, the dots and the buttons'
  disabled flags.
- **The image modal**: a lightbox over one gallery. It has next and previous
  arrows whose visibility follows the index, keyboard navigation while the
  modal is open, and closing.

Modules:

- `Breakpoints` (`breakpoints.dfy`): the breakpoint table and the choice of how
  many cards are shown at a viewport width.
- `SliderState` (`slider_state.dfy`): the carousel's state and its invariant
  `Valid`, plus `updateSliderPosition` and the rendered `View`.
- `SliderNav` (`slider_nav.dfy`): the buttons, the dots and resizing. Each is
  compared against a reference `GoTo`, which clamps the target into the
  reachable pages.
- `SliderGesture` (`slider_gesture.dfy`): press, move and end of the drag
  gesture.
- `Slider` (`slider.dfy`): setup, one `Step` per DOM event, runs of events, and
  concrete scenarios.
- `ModalGallery` (`modal_gallery.dfy`): the modal.

Pixel quantities are `real`. The width of one step (a card plus the gap) is a
non-negative `Length`. The browser supplies it, so it enters the model as a
parameter of setup and of each resize.

## Model

| member | source | states |
|---|---|---|
| `Breakpoints.SlidesToShow` | scripts/main.js:106-110 | A width at or below the mobile breakpoint gives the mobile count. Otherwise a width at or below the tablet breakpoint gives the tablet count. Any wider viewport gives the desktop count. The result is always one of the three configured counts. |
| `Breakpoints.MonotoneInWidth` | scripts/main.js:106-110 | In an ordered table, a wider viewport never shows fewer cards, and at least one card is always shown. |
| `Breakpoints.PageConfigurations` | scripts/main.js:253-278 | The projects and activities tables are ordered. At the breakpoint boundaries they give 1, 2, 2 and 3 cards. |
| `SliderState.Reposition` | scripts/main.js:114-116 | Both translates move to the offset of the current page, `-index * step`, and nothing else changes. When the page and gesture flags are consistent, the whole invariant then holds. |
| `SliderState.IndicatorCount` | scripts/main.js:89-99 | There is one dot per reachable page (last page + 1), and there are no dots when only one page exists. |
| `SliderState.DotsAreReachablePages` | scripts/main.js:91-96 | When dots exist, the dot positions are exactly the page indices from 0 to the last page. |
| `SliderState.Dots` | scripts/main.js:101-104 | There is one flag per dot. On an in-bounds page the current page's dot is active, and no other dot ever is. |
| `SliderState.Render` | scripts/main.js:117-120 | The transform follows the track. Previous is disabled exactly on page 0. Next is disabled exactly when no later card is hidden, which on an in-bounds page is exactly the last page. The dots are those of `Dots`. |
| `SliderState.ExactlyOneActiveDot` | scripts/main.js:101-104 | For an in-bounds page, the dot of the current page is active and no other dot is. With no dots, nothing is active. |
| `SliderState.RenderMatchesPage` | scripts/main.js:114-121 | In a valid state, previous is disabled exactly on page 0 and next is disabled exactly on the last page. Outside a drag the transform is `-index * step`. During a drag the transform is that offset plus the distance dragged. |
| `SliderState.CanAdvanceBeforeLast` | scripts/main.js:120 | For an in-bounds page, the guard `index + slidesToShow < slides.length` holds exactly before the last page. |
| `SliderNav.Next` | scripts/main.js:199-201 | The next button advances exactly one page when a later card is hidden. Both translates then sit at the new page's offset, even during a drag, and nothing else changes. Otherwise the state is left exactly as it was. The invariant is preserved. |
| `SliderNav.Prev` | scripts/main.js:202-204 | The previous button goes back exactly one page when not on page 0, with both translates at the new page's offset and nothing else changed. Otherwise it leaves the state exactly as it was. The invariant is preserved. |
| `SliderNav.NextIsGoToFollowing` | scripts/main.js:199-201 | Outside a drag, the next button equals going to the following page clamped into range, edge no-op included. |
| `SliderNav.PrevIsGoToPreceding` | scripts/main.js:202-204 | Outside a drag, the previous button equals going to the preceding page clamped into range. |
| `SliderNav.PrevUndoesNext` | scripts/main.js:199-204 | From a valid, resting state that can advance, next then previous returns exactly the original state. |
| `SliderNav.NextUndoesPrev` | scripts/main.js:199-204 | From a valid, resting state past page 0, previous then next returns exactly the original state. |
| `SliderNav.DotClick` | scripts/main.js:96 | Clicking dot `i` makes page `i` current. That page is always in bounds. Both translates sit at its offset, even during a drag, and nothing else changes. |
| `SliderNav.DotClickIsGoTo` | scripts/main.js:96 | Clicking a dot equals going to its page: the clamp never has to act. |
| `SliderNav.Resize` | scripts/main.js:233-244 | The visible count is recomputed from the table for the new width. The page is kept when it still fits and otherwise snaps to the new last page. A resize never moves the page forward, and the result is in bounds. |
| `SliderNav.ResizeIsGoTo` | scripts/main.js:233-244 | In a valid state, a resize equals going to the current page, clamped, in the layout for the new width. |
| `SliderNav.ResizeClampsPage` | scripts/main.js:235-236 | After a resize, the page equals the old page clamped into the new range of pages. |
| `SliderGesture.SnapThreshold` | scripts/main.js:184 | The threshold is at least 0 and at most 50 px and one fifth of the step, and equals one of those two bounds. |
| `SliderGesture.PressAsWritten` | scripts/main.js:138-146 | A press arms a new undecided gesture at the press point, clears `hasMoved`, and changes nothing else: the page, both translates and the layout are untouched. |
| `SliderGesture.PressAsWrittenStrandsTrack` | scripts/main.js:138-196 | A press during a confirmed 40 px drag, followed by the gesture's end, leaves the track 40 px away from page 0 while page 0 stays current, which breaks the invariant. |
| `SliderGesture.Press` | scripts/main.js:138-146 | The same as the press above, except that the track also snaps back to its page. Nothing else changes, and the invariant is preserved. |
| `SliderGesture.Move` | scripts/main.js:148-174 | Without a press, a move changes nothing. Before the intent is decided, it changes nothing unless `abs(dx) > 6` and `abs(dx) > abs(dy)`. Once that holds, the gesture is dragging, `hasMoved` is set, and the track follows the horizontal travel since the press. Nothing but those three fields ever changes. |
| `SliderGesture.EndDrag` | scripts/main.js:176-196 | The gesture is over (not pressed, not dragging) and `hasMoved` is untouched. Without a confirmed drag, only the pressed flag changes. After a drag, both translates sit at the page's offset. Only the page, the translates and the two flags can change, the page by at most one, and the invariant is preserved. |
| `SliderGesture.SwipeMatchesButtons` | scripts/main.js:181-190 | After a confirmed drag, going past the threshold to the left moves the page as the next button would. Going past it to the right moves the page as the previous button would. A drag within the threshold keeps the page. |
| `SliderGesture.PageFollowsDragDirection` | scripts/main.js:186-187 | The page advances only after a leftward confirmed drag and goes back only after a rightward one. |
| `SliderGesture.EndDragIdempotent` | scripts/main.js:176-196 | Ending a gesture twice equals ending it once. |
| `Slider.Setup` | scripts/main.js:246-249 | A section with no slides is not set up. Otherwise the carousel keeps the given table, slide count, width and step. It starts valid on page 0 with previous disabled and the table's count for the width. The track is at 0, the press point is (0, 0), and no gesture is under way. |
| `Slider.SuppressesClick` | scripts/main.js:207-212 | The viewport's capture-phase listener swallows a click exactly while `hasMoved` is set. A drag under way always has it set. |
| `Slider.Step` | scripts/main.js:198-244 | Every event (with the corrected press, see Findings) keeps the state valid, and keeps the page in bounds and the flags consistent even from a state whose track is off its page. `hasMoved` is raised only by a move that leaves the gesture dragging and is cleared only by a press. Only dots and resizes move more than one page, and a click changes nothing. |
| `Slider.RunPreservesValid` | scripts/main.js:73-244 | Any sequence of events (with the corrected press, see Findings) from a valid state ends valid, with `0 <= index <= max(0, slides - slidesToShow)`. |
| `Slider.StepAsWritten` | scripts/main.js:138-244 | Every event with the press exactly as written keeps the page in bounds and the gesture flags consistent. It agrees with `Step` except for a press while the track is off its page, and even then differs only in where the track is left. |
| `Slider.RunAsWrittenKeepsLayout` | scripts/main.js:73-244 | Any sequence of events with the press as written, from a state with an in-bounds page and consistent flags, ends with `0 <= index <= max(0, slides - slidesToShow)` and consistent flags. |
| `Slider.ReachableStatesAsWrittenInBounds` | scripts/main.js:246-249 | Every state reachable from setup with the press as written keeps its page in bounds and its gesture flags consistent. |
| `Slider.ReachableStatesAreValid` | scripts/main.js:246-249 | Every state reachable from setup (with the corrected press, see Findings) satisfies the invariant. |
| `Slider.LeaveActsAsEnd` | scripts/main.js:219 | In a valid state, pointerleave has the same effect as pointerup. |
| `Slider.SecondEndIsNoOp` | scripts/main.js:218-220 | A second terminal event (up, cancel or leave) after one has ended the gesture changes nothing. |
| `Slider.CancelCanChangePage` | scripts/main.js:218-220 | From page 0 of four project cards with a 300 px step, a 60 px leftward drag that is cancelled ends exactly as a release does, on page 1. |
| `Slider.RunGesture` | scripts/main.js:216-218 | A press, one move and a release together are the composition of the three handlers (with the corrected press, see Findings). |
| `Slider.SwipeLeftAdvances` | scripts/main.js:156-190 | A horizontal swipe (with the corrected press, see Findings) left past the threshold moves the page as the next button does, and the next click is suppressed. |
| `Slider.SwipeRightRetreats` | scripts/main.js:156-190 | A horizontal swipe (with the corrected press, see Findings) right past the threshold moves the page as the previous button does, and the next click is suppressed. |
| `Slider.ScrollKeepsPage` | scripts/main.js:155-165 | A gesture (with the corrected press, see Findings) without horizontal intent keeps the page and the rendered offset, and the next click is let through. |
| `Slider.NextPressesStopAtLastPage` | scripts/main.js:199-201 | `k` presses of next from a valid state land on `min(index + k, last page)`. |
| `Slider.SixProjectsFourPresses` | scripts/main.js:253-264 | Six project cards on a wide screen give five dots. Four presses of next land on page 4, with next disabled and previous enabled. |
| `Slider.ResizeToPhoneKeepsLastDesktopPage` | scripts/main.js:233-237 | Five project cards on desktop page 3 (the last page) keep page 3 after narrowing to a phone. The phone layout has one card per page, 5 dots, and last page 4. |
| `ModalGallery.Initial` | scripts/main.js:10-11 | Before any gallery is opened, there are no items, the index is 0, and the modal is hidden. |
| `ModalGallery.ShowImage` | scripts/main.js:32-38 | With items present, the previous arrow is hidden exactly at index 0 and the next arrow exactly at the last item. With no items nothing changes. |
| `ModalGallery.Open` | scripts/main.js:23-30 | Opening shows the modal on the clicked item. Arrows are shown exactly when there is an item before or after it. |
| `ModalGallery.Next` | scripts/main.js:40 | Next moves forward one item exactly when not on the last item, and otherwise changes nothing. The index stays on an item and the arrows stay right. |
| `ModalGallery.Prev` | scripts/main.js:41 | Previous moves back one item exactly when not on the first item, and otherwise changes nothing. The invariant is preserved. |
| `ModalGallery.PrevUndoesNext` | scripts/main.js:40-41 | Next then previous from a non-last item restores the modal exactly. |
| `ModalGallery.NextUndoesPrev` | scripts/main.js:40-41 | Previous then next from a non-first item restores the modal exactly. |
| `ModalGallery.Close` | scripts/main.js:43-44 | The close button and a click on the backdrop hide the modal and change nothing else. |
| `ModalGallery.KeyDown` | scripts/main.js:48-53 | While the modal is hidden, keys change nothing. While it is visible, the right arrow acts as Next, the left arrow as Prev, Escape acts as the close button (only `visible` changes), and other keys do nothing. |
| `ModalGallery.OnlyEscapeHides` | scripts/main.js:48-53 | While the modal is open, a key hides it exactly when the key is Escape. |
| `ModalGallery.Step` | scripts/main.js:14-53 | Every modal event keeps the invariant. Only a trigger click can make the modal visible or change the gallery. |
| `ModalGallery.RunPreservesValid` | scripts/main.js:14-53 | Any sequence of modal events from a valid state keeps the index on an item of the gallery and the arrows consistent with it. |

## Findings

| source | as written | input that shows it | evidently intended | confidence | as-written member | corrected member |
|---|---|---|---|---|---|---|
| scripts/main.js:138-146 | `pointerDown` clears `isDragging` but leaves `currentTranslate` at its mid-drag value. A press during a confirmed drag therefore makes the next `endDrag` skip `updateSliderPosition`. | Page 0, step 100: press at x=100, move to x=60 (drag confirmed, track at -40), a second touch point presses, then release. The track stays at -40 while page 0 is current, with the transition still off. | The track always comes to rest on a page when a gesture ends. | medium, not executed | `SliderGesture.PressAsWritten` (with `SliderGesture.PressAsWrittenStrandsTrack`) | `SliderGesture.Press` |

`Slider.Step` uses the corrected `Press`. The corrected press snaps the track
back to its page, as a drag that ends within the snap threshold does. Every `Valid` state that `Step`
preserves therefore has the track on its page whenever no drag is confirmed.

## Behaviour worth noting

- `hasMoved` is cleared only by the next press, not after the one click that
  follows a drag. The capture-phase click listener therefore swallows every
  click inside the viewport (the slider's parent element, where the listener
  sits) between the end of a drag and the next press.
  `Slider.SuppressesClick` and the `hasMoved` clauses of `Slider.Step` state
  exactly this.
- The next button's disabled flag is computed as
  `index + slidesToShow >= slides.length`, not as "index is the last page". In
  a valid state the two agree (`SliderState.RenderMatchesPage`).
- A drag counts as horizontal only after more than 6 px of horizontal travel.
  When the step is narrower than 30 px, the snap threshold is below 6 px, and a
  move that would pass the threshold can still fail to start a drag.
  `Slider.ScrollKeepsPage` covers this case.
- `pointercancel` and `pointerleave` (scripts/main.js:218-220) go to the same
  `endDrag` as `pointerup`, threshold rule included, so cancelling a confirmed
  drag is not a plain snap-back: it can change the page
  (`Slider.CancelCanChangePage`).

## Left out

- DOM lookups, event registration, the pointer, touch and mouse normalisation
  in `getPoint`, and the choice between pointer and touch/mouse listeners
  (scripts/main.js:58-68, 87, 128-134, 214-231). Events enter the model already
  reduced to `Slider.Event`. The missing-element checks at setup are reduced to
  "no slides, no carousel".
- Rendering and timing: the `requestAnimationFrame` loop, toggling the CSS
  transition, `touchAction`, the `dragging` class, `preventDefault` during a
  drag, and the 100 ms delay before the re-render after a resize. The model
  takes that re-render to happen at once, so a gesture ending inside the
  100 ms window is not modelled.
- Measuring the step width (`offsetWidth` plus the `gap` style). The source
  re-reads the first card's width on every use, but reads the gap once at
  setup (scripts/main.js:75, 112), so after a resize the step is the new card
  width plus the gap from setup. The model stores the step measured at setup
  and at the last resize, because only a resize changes the layout here; the
  step a resize carries is whatever the page then computes.
  The browser gives an integer width; the model allows any non-negative real.
- ModalGallery.Open: the `href` lookup and `findIndex` are reduced to a
  position that is assumed valid. The clicked trigger is an item of its own
  gallery, so `findIndex` always finds it. Setting the image `src` and skipping
  hidden triggers are DOM work and are not modelled.
- Floating-point arithmetic: pixel values are exact reals. JavaScript's double
  rounding in `prevTranslate + dx`, `movedBy`, `step / 5` and
  `-index * step` (scripts/main.js:115, 170, 182-184) is not modelled, so a
  drag that lands within rounding error of the threshold may be classified
  differently by the page.
- Slider.Step, Slider.Run and the lemmas built on them (RunPreservesValid,
  ReachableStatesAreValid, RunGesture, SwipeLeftAdvances, SwipeRightRetreats,
  ScrollKeepsPage) describe the page with the corrected press of the Findings
  table. With the press as written, a press during a confirmed drag breaks
  only the track clause of `Valid` (`Track`), and the offset clause of
  ScrollKeepsPage fails from such a state. The page bound and the flag
  consistency (`Layout`) are proved for the press as written too, by
  `Slider.StepAsWritten` and `Slider.RunAsWrittenKeepsLayout`.
- A click on a carousel dot that does not exist reaches no handler. `Slider.Step`
  ignores it.

=== FILE: breakpoints.dfy ===
/**
 * The breakpoint table each carousel section is configured with, and the
 * choice of how many cards are visible at a given viewport width.
 */
module Breakpoints {

  /** `{ mobile: { breakpoint, slides }, tablet: { breakpoint, slides }, desktop: { slides } }` */
  datatype Config = Config(
    mobileBreakpoint: int, mobileSlides: int,
    tabletBreakpoint: int, tabletSlides: int,
    desktopSlides: int)

  /** A table whose bands grow with the width and whose card counts grow with them. */
  predicate Ordered(c: Config) {
    && c.mobileBreakpoint <= c.tabletBreakpoint
    && 1 <= c.mobileSlides <= c.tabletSlides <= c.desktopSlides
  }

  /**
   * The number of cards shown at viewport width `width`: the first band whose
   * breakpoint the width does not exceed, desktop when it exceeds both.
   */
  function SlidesToShow(c: Config, width: int): (n: int)
    ensures n == c.mobileSlides || n == c.tabletSlides || n == c.desktopSlides
    ensures width <= c.mobileBreakpoint ==> n == c.mobileSlides
    ensures c.mobileBreakpoint < width <= c.tabletBreakpoint ==> n == c.tabletSlides
    ensures c.mobileBreakpoint < width && c.tabletBreakpoint < width ==> n == c.desktopSlides
  {
    if width <= c.mobileBreakpoint then c.mobileSlides
    else if width <= c.tabletBreakpoint then c.tabletSlides
    else c.desktopSlides
  }

  /** In an ordered table a wider viewport never shows fewer cards, and always at least one. */
  lemma MonotoneInWidth(c: Config, narrow: int, wide: int)
    requires Ordered(c) && narrow <= wide
    ensures 1 <= SlidesToShow(c, narrow) <= SlidesToShow(c, wide)
  {
  }

  /** The table of the projects section. */
  const Projects: Config := Config(768, 1, 960, 2, 2)

  /** The table of the activities section. */
  const Activities: Config := Config(768, 1, 960, 2, 3)

  /** Both page configurations are ordered tables, with the expected counts at sample widths. */
  lemma PageConfigurations()
    ensures Ordered(Projects) && Ordered(Activities)
    ensures SlidesToShow(Projects, 768) == 1 && SlidesToShow(Projects, 769) == 2
    ensures SlidesToShow(Activities, 960) == 2 && SlidesToShow(Activities, 961) == 3
  {
  }
}

=== FILE: modal_gallery.dfy ===
/**
 * The image modal: a lightbox over the items of one gallery, with next and
 * previous arrows, keyboard navigation while it is open, and closing.
 */
module ModalGallery {

  datatype Key = ArrowRight | ArrowLeft | Escape | OtherKey

  /**
   * `galleryItems.length`, `currentIndex`, whether the modal has the `visible`
   * class, and whether each arrow is displayed.
   */
  datatype Modal = Modal(itemCount: nat, index: int, visible: bool, prevShown: bool, nextShown: bool)

  /** The arrows show exactly where there is an image to go to. */
  predicate ArrowsMatch(m: Modal) {
    && (m.prevShown <==> m.index != 0)
    && (m.nextShown <==> m.index != m.itemCount - 1)
  }

  /**
   * Before the first opening there are no items and the modal is hidden; after
   * it the index names an item and the arrows agree with it.
   */
  predicate Valid(m: Modal) {
    if m.itemCount == 0 then m.index == 0 && !m.visible
    else 0 <= m.index < m.itemCount && ArrowsMatch(m)
  }

  /** The page as loaded: no gallery chosen yet, the arrows as the markup displays them. */
  function Initial(prevShown: bool, nextShown: bool): (m: Modal)
    ensures Valid(m) && !m.visible && m.itemCount == 0
  {
    Modal(0, 0, false, prevShown, nextShown)
  }

  /** updateModalImage: with items present, re-derive the arrows from the index. */
  function ShowImage(m: Modal): (r: Modal)
    ensures m.itemCount > 0 ==> ArrowsMatch(r)
    ensures m.itemCount == 0 ==> r == m
    ensures r.itemCount == m.itemCount && r.index == m.index && r.visible == m.visible
  {
    if m.itemCount > 0 then m.(prevShown := m.index != 0, nextShown := m.index != m.itemCount - 1)
    else m
  }

  /**
   * openModal on item `index` of a gallery of `itemCount` items. The clicked
   * trigger is itself an item of its gallery, so its position is a valid one.
   */
  function Open(m: Modal, itemCount: nat, index: int): (r: Modal)
    requires 0 <= index < itemCount
    ensures r.visible && r.itemCount == itemCount && r.index == index && Valid(r)
    ensures r.prevShown <==> index > 0
    ensures r.nextShown <==> index < itemCount - 1
  {
    ShowImage(m.(itemCount := itemCount, index := index)).(visible := true)
  }

  /** showNextImage: one item forward unless on the last, otherwise nothing. */
  function Next(m: Modal): (r: Modal)
    ensures m.index < m.itemCount - 1 ==> r.index == m.index + 1
    ensures 0 <= m.index < m.itemCount - 1 ==> ArrowsMatch(r)
    ensures m.index >= m.itemCount - 1 ==> r == m
    ensures r.itemCount == m.itemCount && r.visible == m.visible
    ensures Valid(m) ==> Valid(r)
  {
    if m.index < m.itemCount - 1 then ShowImage(m.(index := m.index + 1)) else m
  }

  /** showPrevImage: one item back unless on the first, otherwise nothing. */
  function Prev(m: Modal): (r: Modal)
    ensures m.index > 0 ==> r.index == m.index - 1
    ensures m.index > 0 && m.index <= m.itemCount ==> ArrowsMatch(r)
    ensures m.index <= 0 ==> r == m
    ensures r.itemCount == m.itemCount && r.visible == m.visible
    ensures Valid(m) ==> Valid(r)
  {
    if m.index > 0 then ShowImage(m.(index := m.index - 1)) else m
  }

  /** Going forward and back again restores the modal exactly. */
  lemma PrevUndoesNext(m: Modal)
    requires Valid(m) && m.index < m.itemCount - 1
    ensures Prev(Next(m)) == m
  {
  }

  /** Going back and forward again restores the modal exactly. */
  lemma NextUndoesPrev(m: Modal)
    requires Valid(m) && m.index > 0
    ensures Next(Prev(m)) == m
  {
  }

  /** The close button and a click on the backdrop itself: hide, nothing else. */
  function Close(m: Modal): (r: Modal)
    ensures !r.visible && r.(visible := m.visible) == m
    ensures Valid(m) ==> Valid(r)
  {
    m.(visible := false)
  }

  /**
   * The document keydown listener: ignored while the modal is hidden;
   * otherwise the right arrow goes forward, the left arrow back, and Escape
   * closes.
   */
  function KeyDown(m: Modal, k: Key): (r: Modal)
    ensures !m.visible ==> r == m
    ensures m.visible && k.Escape? ==> r == Close(m) && !r.visible && r.index == m.index
    ensures m.visible && k.ArrowRight? ==> r == Next(m)
    ensures m.visible && k.ArrowLeft? ==> r == Prev(m)
    ensures k.OtherKey? ==> r == m
    ensures Valid(m) ==> Valid(r)
  {
    if !m.visible then m
    else
      match k
      case ArrowRight => Next(m)
      case ArrowLeft => Prev(m)
      case Escape => Close(m)
      case OtherKey => m
  }

  /** While the modal is open, only Escape can hide it; the arrows never do. */
  lemma OnlyEscapeHides(m: Modal, k: Key)
    requires m.visible
    ensures !KeyDown(m, k).visible <==> k.Escape?
  {
  }

  /**
   * The events the modal reacts to. `Opened` is a click on a gallery trigger,
   * carrying the size of its gallery and its position there; `Clicked` is a
   * click inside the modal, `onBackdrop` when its target is the modal itself.
   */
  datatype Event =
    | Opened(itemCount: nat, index: int)
    | NextArrow
    | PrevArrow
    | KeyPressed(key: Key)
    | CloseButton
    | Clicked(onBackdrop: bool)

  /** A trigger click always names a position inside its own gallery. */
  predicate Possible(e: Event) {
    e.Opened? ==> 0 <= e.index < e.itemCount
  }

  function Step(m: Modal, e: Event): (r: Modal)
    requires Possible(e)
    ensures Valid(m) ==> Valid(r)
    ensures r.visible && !m.visible ==> e.Opened?
    ensures !e.Opened? ==> r.itemCount == m.itemCount
  {
    match e
    case Opened(n, i) => Open(m, n, i)
    case NextArrow => Next(m)
    case PrevArrow => Prev(m)
    case KeyPressed(k) => KeyDown(m, k)
    case CloseButton => Close(m)
    case Clicked(onBackdrop) => if onBackdrop then Close(m) else m
  }

  function Run(m: Modal, events: seq<Event>): Modal
    requires forall i :: 0 <= i < |events| ==> Possible(events[i])
    decreases |events|
  {
    if |events| == 0 then m else Run(Step(m, events[0]), events[1..])
  }

  /** From any valid state, any sequence of events keeps the index on an item and the arrows right. */
  lemma {:induction false} RunPreservesValid(m: Modal, events: seq<Event>)
    requires Valid(m)
    requires forall i :: 0 <= i < |events| ==> Possible(events[i])
    ensures Valid(Run(m, events))
    ensures Run(m, events).itemCount > 0 ==> 0 <= Run(m, events).index < Run(m, events).itemCount
    decreases |events|
  {
    if |events| > 0 {
      RunPreservesValid(Step(m, events[0]), events[1..]);
    }
  }
}

=== FILE: slider.dfy ===
/**
 * One carousel section as an event machine: `setupSlider` builds the initial
 * state and every DOM event the section listens to becomes one transition.
 */
module Slider {
  import opened Breakpoints
  import opened SliderState
  import opened SliderNav
  import opened SliderGesture

  datatype Option<T> = None | Some(value: T)

  /**
   * The events the section reacts to, after the pointer, touch and mouse
   * variants are reduced to one shape. `WindowResized` carries the new
   * viewport width and the step the page then moves by: the first card's
   * width as re-read after the resize plus the gap read once at setup.
   */
  datatype Event =
    | PointerDown(x: real, y: real)
    | PointerMove(x: real, y: real)
    | PointerUp
    | PointerCancel
    | PointerLeave
    | NextButton
    | PrevButton
    | DotClicked(dot: int)
    | WindowResized(width: int, step: Length)
    | Click

  /**
   * setupSlider: nothing is set up for a section without slides; otherwise the
   * carousel starts on the first page with the count the table gives for the
   * current width, no gesture under way, and the track at rest.
   */
  function Setup(config: Config, slideCount: nat, width: int, step: Length): (r: Option<Carousel>)
    ensures r.Some? <==> slideCount > 0
    ensures r.Some? ==> && r.value.config == config && r.value.slideCount == slideCount
                        && r.value.width == width && r.value.step == step
                        && r.value.slidesToShow == SlidesToShow(config, width)
                        && Valid(r.value) && r.value.index == 0 && AtRest(r.value)
                        && r.value.currentTranslate == 0.0
                        && !r.value.pointerDown && !r.value.dragging && !r.value.hasMoved
                        && r.value.startX == 0.0 && r.value.startY == 0.0
                        && Render(r.value).prevDisabled
  {
    if slideCount == 0 then None
    else
      var s := Carousel(config, slideCount, width, step, SlidesToShow(config, width), 0,
                      false, false, false, 0.0, 0.0, 0.0, 0.0);
      Some(Reposition(s))
  }

  /**
   * The capture-phase click listener on the viewport swallows a click exactly
   * while `hasMoved` is set; a drag under way always has it set. When the flag
   * is raised and cleared is stated by `Step`.
   */
  function SuppressesClick(s: Carousel): (suppressed: bool)
    ensures suppressed <==> s.hasMoved
    ensures Layout(s) && s.dragging ==> suppressed
  {
    s.hasMoved
  }

  /**
   * One event. A press goes to the corrected `Press`, which snaps a dragged
   * track back to its page. A leave ends the gesture only while the pointer is down; a
   * click on a dot that does not exist reaches no handler. Every transition
   * keeps the state valid; `hasMoved` is raised only by a confirmed drag and
   * cleared only by a press; only dots and resizes move more than one page.
   */
  function Step(s: Carousel, e: Event): (r: Carousel)
    ensures Valid(s) ==> Valid(r)
    ensures Layout(s) ==> Layout(r)
    ensures !s.hasMoved && r.hasMoved ==> e.PointerMove? && r.dragging
    ensures s.hasMoved && !r.hasMoved ==> e.PointerDown?
    ensures !(e.DotClicked? || e.WindowResized?) ==> s.index - 1 <= r.index <= s.index + 1
    ensures e.Click? ==> r == s
  {
    match e
    case PointerDown(x, y) => Press(s, x, y)
    case PointerMove(x, y) => Move(s, x, y)
    case PointerUp => EndDrag(s)
    case PointerCancel => EndDrag(s)
    case PointerLeave => if s.pointerDown then EndDrag(s) else s
    case NextButton => Next(s)
    case PrevButton => Prev(s)
    case DotClicked(i) => if 0 <= i < IndicatorCount(s) then DotClick(s, i) else s
    case WindowResized(width, step) => Resize(s, width, step)
    case Click => s
  }

  function Run(s: Carousel, events: seq<Event>): Carousel
    decreases |events|
  {
    if |events| == 0 then s else Run(Step(s, events[0]), events[1..])
  }

  /** Any sequence of events keeps the state valid, in particular the page in bounds. */
  lemma {:induction false} RunPreservesValid(s: Carousel, events: seq<Event>)
    requires Valid(s)
    ensures Valid(Run(s, events))
    ensures InBounds(Run(s, events))
    decreases |events|
  {
    if |events| > 0 {
      RunPreservesValid(Step(s, events[0]), events[1..]);
    }
  }

  /**
   * One event with pointerdown exactly as written. It differs from `Step` only
   * in a press while the track is off its page, and it still keeps the page in bounds
   * and the gesture flags consistent; only the track can be left off its page.
   */
  function StepAsWritten(s: Carousel, e: Event): (r: Carousel)
    ensures Layout(s) ==> Layout(r)
    ensures !e.PointerDown? || s.currentTranslate == s.prevTranslate ==> r == Step(s, e)
    ensures r.(currentTranslate := s.prevTranslate) == Step(s, e).(currentTranslate := s.prevTranslate)
  {
    match e
    case PointerDown(x, y) => PressAsWritten(s, x, y)
    case _ => Step(s, e)
  }

  function RunAsWritten(s: Carousel, events: seq<Event>): Carousel
    decreases |events|
  {
    if |events| == 0 then s else RunAsWritten(StepAsWritten(s, events[0]), events[1..])
  }

  /**
   * With the press as written, any sequence of events still keeps the page in
   * bounds and the gesture flags consistent.
   */
  lemma {:induction false} RunAsWrittenKeepsLayout(s: Carousel, events: seq<Event>)
    requires Layout(s)
    ensures Layout(RunAsWritten(s, events))
    ensures InBounds(RunAsWritten(s, events))
    decreases |events|
  {
    if |events| > 0 {
      RunAsWrittenKeepsLayout(StepAsWritten(s, events[0]), events[1..]);
    }
  }

  /** Every state a section reaches from its setup, with the press as written, keeps its page in bounds. */
  lemma ReachableStatesAsWrittenInBounds(config: Config, slideCount: nat, width: int, step: Length, events: seq<Event>)
    requires slideCount > 0
    ensures Setup(config, slideCount, width, step).Some?
    ensures Layout(RunAsWritten(Setup(config, slideCount, width, step).value, events))
  {
    RunAsWrittenKeepsLayout(Setup(config, slideCount, width, step).value, events);
  }

  /** Every state a section reaches from its setup satisfies the invariant. */
  lemma ReachableStatesAreValid(config: Config, slideCount: nat, width: int, step: Length, events: seq<Event>)
    requires slideCount > 0
    ensures Setup(config, slideCount, width, step).Some?
    ensures Valid(Run(Setup(config, slideCount, width, step).value, events))
  {
    RunPreservesValid(Setup(config, slideCount, width, step).value, events);
  }

  /** pointerleave with the pointer down is pointerup; with it up it changes nothing either. */
  lemma LeaveActsAsEnd(s: Carousel)
    requires Valid(s)
    ensures Step(s, PointerLeave) == Step(s, PointerUp)
  {
  }

  /** A second terminal event for an already ended gesture changes nothing. */
  lemma SecondEndIsNoOp(s: Carousel, first: Event, second: Event)
    requires first.PointerUp? || first.PointerCancel? || first.PointerLeave?
    requires second.PointerUp? || second.PointerCancel? || second.PointerLeave?
    requires Valid(s)
    ensures Step(Step(s, first), second) == Step(s, first)
  {
  }

  /**
   * A cancelled drag is not a plain snap-back: pointercancel ends the gesture
   * as pointerup does, so a drag past the snap threshold still turns the page.
   */
  lemma CancelCanChangePage()
    ensures Setup(Projects, 4, 1200, 300.0).Some?
    ensures
      var s := Run(Setup(Projects, 4, 1200, 300.0).value, [PointerDown(100.0, 0.0), PointerMove(40.0, 0.0)]);
      && s.index == 0 && s.dragging
      && Step(s, PointerCancel) == Step(s, PointerUp)
      && Step(s, PointerCancel).index == 1
  {
    var s0 := Setup(Projects, 4, 1200, 300.0).value;
    var events := [PointerDown(100.0, 0.0), PointerMove(40.0, 0.0)];
    assert events[1..] == [PointerMove(40.0, 0.0)];
    assert Run(s0, events) == Move(Press(s0, 100.0, 0.0), 40.0, 0.0);
  }

  /** The three events of one gesture: press at (x, y), one move by (dx, dy), release. */
  function Gesture(x: real, y: real, dx: real, dy: real): seq<Event> {
    [PointerDown(x, y), PointerMove(x + dx, y + dy), PointerUp]
  }

  lemma RunGesture(s: Carousel, x: real, y: real, dx: real, dy: real)
    ensures Run(s, Gesture(x, y, dx, dy))
         == EndDrag(Move(Press(s, x, y), x + dx, y + dy))
  {
    var g := Gesture(x, y, dx, dy);
    var s1 := Press(s, x, y);
    var s2 := Move(s1, x + dx, y + dy);
    assert g[1..] == [PointerMove(x + dx, y + dy), PointerUp];
    assert g[1..][1..] == [PointerUp];
    assert Run(s2, [PointerUp]) == EndDrag(s2);
    assert Run(s1, g[1..]) == Run(s2, [PointerUp]);
  }

  /**
   * A horizontal swipe to the left past the snap threshold does what the next
   * button does, and the click that may follow it is swallowed.
   */
  lemma SwipeLeftAdvances(s: Carousel, x: real, y: real, dx: real, dy: real)
    requires Valid(s)
    requires HorizontalIntent(dx, dy) && dx < -SnapThreshold(s.step)
    ensures Run(s, Gesture(x, y, dx, dy)).index == Next(s).index
    ensures SuppressesClick(Run(s, Gesture(x, y, dx, dy)))
  {
    RunGesture(s, x, y, dx, dy);
  }

  /** A horizontal swipe to the right past the snap threshold does what the previous button does. */
  lemma SwipeRightRetreats(s: Carousel, x: real, y: real, dx: real, dy: real)
    requires Valid(s)
    requires HorizontalIntent(dx, dy) && dx > SnapThreshold(s.step)
    ensures Run(s, Gesture(x, y, dx, dy)).index == Prev(s).index
    ensures SuppressesClick(Run(s, Gesture(x, y, dx, dy)))
  {
    RunGesture(s, x, y, dx, dy);
  }

  /**
   * A gesture without horizontal intent (a vertical scroll, a tap) leaves the
   * page and track alone and lets the following click through.
   */
  lemma ScrollKeepsPage(s: Carousel, x: real, y: real, dx: real, dy: real)
    requires Valid(s) && !HorizontalIntent(dx, dy)
    ensures Run(s, Gesture(x, y, dx, dy)).index == s.index
    ensures Render(Run(s, Gesture(x, y, dx, dy))).transform == Offset(s)
    ensures !SuppressesClick(Run(s, Gesture(x, y, dx, dy)))
  {
    RunGesture(s, x, y, dx, dy);
  }

  function Min(a: int, b: int): int {
    if a < b then a else b
  }

  /** `k` copies of event `e`. */
  function Repeat(e: Event, k: nat): (events: seq<Event>)
    ensures |events| == k
  {
    if k == 0 then [] else [e] + Repeat(e, k - 1)
  }

  /** Pressing next `k` times moves `k` pages forward, stopping at the last page. */
  lemma {:induction false} NextPressesStopAtLastPage(s: Carousel, k: nat)
    requires Valid(s)
    ensures Run(s, Repeat(NextButton, k)).index == Min(s.index + k, MaxIndex(s))
    ensures MaxIndex(Run(s, Repeat(NextButton, k))) == MaxIndex(s)
    decreases k
  {
    if k > 0 {
      var events := Repeat(NextButton, k);
      assert events[1..] == Repeat(NextButton, k - 1);
      CanAdvanceBeforeLast(s);
      NextPressesStopAtLastPage(Next(s), k - 1);
    }
  }

  /**
   * Six project cards on a wide screen show two at a time: five dots, and four
   * presses of next from the start land on the last page with next disabled.
   */
  lemma SixProjectsFourPresses(step: Length)
    ensures Setup(Projects, 6, 1200, step).Some?
    ensures
      var s := Setup(Projects, 6, 1200, step).value;
      var r := Run(s, Repeat(NextButton, 4));
      && IndicatorCount(s) == 5
      && r.index == 4
      && Render(r).nextDisabled
      && !Render(r).prevDisabled
  {
    var s := Setup(Projects, 6, 1200, step).value;
    NextPressesStopAtLastPage(s, 4);
    RunPreservesValid(s, Repeat(NextButton, 4));
    RenderMatchesPage(Run(s, Repeat(NextButton, 4)));
  }

  /**
   * Five project cards on the last desktop page (3): narrowing to a phone
   * shows one card per page, and page 3 still fits, so it is kept.
   */
  lemma ResizeToPhoneKeepsLastDesktopPage(step: Length, phoneStep: Length)
    ensures Setup(Projects, 5, 1200, step).Some?
    ensures
      var s := Run(Setup(Projects, 5, 1200, step).value, Repeat(NextButton, 3));
      var r := Step(s, WindowResized(400, phoneStep));
      && s.index == 3 && MaxIndex(s) == 3
      && r.slidesToShow == 1 && MaxIndex(r) == 4
      && r.index == 3 && IndicatorCount(r) == 5
  {
    var s0 := Setup(Projects, 5, 1200, step).value;
    NextPressesStopAtLastPage(s0, 3);
  }
}

=== FILE: slider_gesture.dfy ===
/**
 * The drag gesture of a carousel: pointer down arms it, a move with clear
 * horizontal intent confirms it, and the end of the gesture turns the
 * distance dragged into at most one page of movement.
 */
module SliderGesture {
  import opened SliderState
  import opened SliderNav

  /** H_THRESHOLD: pixels of horizontal travel before a move counts as a drag. */
  const IntentThreshold: real := 6.0

  /** The snap threshold never exceeds this many pixels. */
  const MaxSnap: real := 50.0

  function Abs(x: real): real {
    if x < 0.0 then -x else x
  }

  /** A move by (dx, dy) from the press point shows horizontal intent. */
  predicate HorizontalIntent(dx: real, dy: real) {
    Abs(dx) > IntentThreshold && Abs(dx) > Abs(dy)
  }

  /** `Math.min(50, step / 5)`: how far a drag must go to change the page. */
  function SnapThreshold(step: Length): (t: real)
    ensures 0.0 <= t <= MaxSnap && t <= step / 5.0
    ensures t == MaxSnap || t == step / 5.0
  {
    if MaxSnap < step / 5.0 then MaxSnap else step / 5.0
  }

  /** How far the track has been dragged from the current page. */
  function MovedBy(s: Carousel): real {
    s.currentTranslate - s.prevTranslate
  }

  /**
   * pointerDown exactly as written: arms a new gesture and clears `hasMoved`,
   * but leaves the track where it is. During a confirmed drag (a second touch
   * point) this drops the drag without bringing the track back to its page.
   */
  function PressAsWritten(s: Carousel, x: real, y: real): (r: Carousel)
    ensures r.pointerDown && !r.dragging && !r.hasMoved && r.startX == x && r.startY == y
    ensures r.(pointerDown := s.pointerDown, dragging := s.dragging, hasMoved := s.hasMoved,
               startX := s.startX, startY := s.startY) == s
  {
    s.(pointerDown := true, dragging := false, hasMoved := false, startX := x, startY := y)
  }

  /**
   * A press during a confirmed drag strands the track: after a drag from
   * page 0 of 40 px and a second press, the gesture ends with the track 40 px
   * away from the page it shows.
   */
  lemma PressAsWrittenStrandsTrack()
    ensures
      var rest := Reposition(Carousel(
        config := Breakpoints.Projects, slideCount := 4, width := 1200, step := 100.0,
        slidesToShow := 2, index := 0, pointerDown := false, dragging := false, hasMoved := false,
        startX := 0.0, startY := 0.0, currentTranslate := 0.0, prevTranslate := 0.0));
      var s := Move(PressAsWritten(rest, 100.0, 0.0), 60.0, 0.0);
      var r := EndDrag(PressAsWritten(s, 200.0, 0.0));
      && Valid(rest) && Valid(s) && s.dragging
      && !r.dragging && r.index == 0
      && Render(r).transform == -40.0 && Render(r).transform != Offset(r)
      && !Valid(r)
  {
  }

  /**
   * pointerDown, corrected: arms a new gesture, clears `hasMoved`, and if a
   * drag was under way the track snaps back to the current page, as a drag
   * that ends within the snap threshold does.
   */
  function Press(s: Carousel, x: real, y: real): (r: Carousel)
    ensures r.pointerDown && !r.dragging && !r.hasMoved && r.startX == x && r.startY == y
    ensures r.currentTranslate == s.prevTranslate
    ensures r.(pointerDown := s.pointerDown, dragging := s.dragging, hasMoved := s.hasMoved,
               startX := s.startX, startY := s.startY, currentTranslate := s.currentTranslate) == s
    ensures s.currentTranslate == s.prevTranslate ==> r == PressAsWritten(s, x, y)
    ensures Valid(s) ==> Valid(r)
  {
    s.(pointerDown := true, dragging := false, hasMoved := false, startX := x, startY := y,
       currentTranslate := s.prevTranslate)
  }

  /**
   * pointerMove to (x, y). Without a press nothing happens; before intent is
   * decided nothing happens unless the move shows horizontal intent; from then
   * on the track follows the pointer's horizontal travel since the press.
   */
  function Move(s: Carousel, x: real, y: real): (r: Carousel)
    ensures !s.pointerDown ==> r == s
    ensures s.pointerDown && !s.dragging && !HorizontalIntent(x - s.startX, y - s.startY) ==> r == s
    ensures s.pointerDown && (s.dragging || HorizontalIntent(x - s.startX, y - s.startY)) ==>
              r.dragging && r.hasMoved && MovedBy(r) == x - s.startX
    ensures r.(dragging := s.dragging, hasMoved := s.hasMoved, currentTranslate := s.currentTranslate) == s
    ensures Valid(s) ==> Valid(r)
  {
    if !s.pointerDown then s
    else
      var dx := x - s.startX;
      var dy := y - s.startY;
      if !s.dragging && !HorizontalIntent(dx, dy) then s
      else s.(dragging := true, hasMoved := true, currentTranslate := s.prevTranslate + dx)
  }

  /**
   * endDrag. After a confirmed drag the page advances when the track was
   * pulled left past the threshold and a later card is hidden, retreats when
   * it was pulled right past it and this is not the first page, and otherwise
   * stays; the track then snaps to the page. Without a confirmed drag the
   * page and track are left alone. Either way the gesture is over.
   */
  function EndDrag(s: Carousel): (r: Carousel)
    ensures !r.pointerDown && !r.dragging
    ensures !s.dragging ==> r == s.(pointerDown := false)
    ensures s.dragging ==> AtRest(r)
    ensures r.(index := s.index, currentTranslate := s.currentTranslate, prevTranslate := s.prevTranslate,
               pointerDown := s.pointerDown, dragging := s.dragging) == s
    ensures s.index - 1 <= r.index <= s.index + 1
    ensures Valid(s) ==> Valid(r)
  {
    var settled :=
      if s.dragging then
        var t := SnapThreshold(s.step);
        var index :=
          if MovedBy(s) < -t && CanAdvance(s) then s.index + 1
          else if MovedBy(s) > t && s.index > 0 then s.index - 1
          else s.index;
        Reposition(s.(index := index))
      else s;
    settled.(pointerDown := false, dragging := false)
  }

  /** A second end of the same gesture changes nothing. */
  lemma EndDragIdempotent(s: Carousel)
    ensures EndDrag(EndDrag(s)) == EndDrag(s)
  {
  }

  /**
   * A swipe is a button press: past the threshold to the left it does what
   * the next button does to the page, past it to the right what the previous
   * button does, and short of it the page stays.
   */
  lemma SwipeMatchesButtons(s: Carousel)
    requires s.dragging
    ensures MovedBy(s) < -SnapThreshold(s.step) ==> EndDrag(s).index == Next(s).index
    ensures MovedBy(s) > SnapThreshold(s.step) ==> EndDrag(s).index == Prev(s).index
    ensures Abs(MovedBy(s)) <= SnapThreshold(s.step) ==> EndDrag(s).index == s.index
  {
  }

  /** The page only ever advances on a leftward drag and retreats on a rightward one. */
  lemma PageFollowsDragDirection(s: Carousel)
    requires Valid(s)
    ensures EndDrag(s).index > s.index ==> s.dragging && MovedBy(s) < 0.0
    ensures EndDrag(s).index < s.index ==> s.dragging && MovedBy(s) > 0.0
  {
  }
}

=== FILE: slider_nav.dfy ===
/**
 * The handlers that move a carousel to a page directly: the next and
 * previous buttons, the indicator dots and the window resize.
 */
module SliderNav {
  import opened Breakpoints
  import opened SliderState

  function Clamp(i: int, lo: int, hi: int): (r: int)
    requires lo <= hi
    ensures lo <= r <= hi
    ensures lo <= i <= hi ==> r == i
    ensures i < lo ==> r == lo
    ensures hi < i ==> r == hi
  {
    if i < lo then lo else if hi < i then hi else i
  }

  /**
   * Reference behaviour: go to page `target`, clamped into the reachable
   * pages, and re-render. The handlers below are compared against it.
   */
  function GoTo(s: Carousel, target: int): Carousel {
    Reposition(s.(index := Clamp(target, 0, MaxIndex(s))))
  }

  /** Only the page and the track position differ between `s` and `r`. */
  predicate SameExceptPage(s: Carousel, r: Carousel) {
    r.(index := s.index, currentTranslate := s.currentTranslate, prevTranslate := s.prevTranslate) == s
  }

  /** The next button: one page forward while a later card is hidden, otherwise nothing. */
  function Next(s: Carousel): (r: Carousel)
    ensures CanAdvance(s) ==> r.index == s.index + 1 && AtRest(r) && SameExceptPage(s, r)
    ensures !CanAdvance(s) ==> r == s
    ensures Valid(s) ==> Valid(r)
  {
    if CanAdvance(s) then Reposition(s.(index := s.index + 1)) else s
  }

  /** The previous button: one page back unless on the first page, otherwise nothing. */
  function Prev(s: Carousel): (r: Carousel)
    ensures s.index > 0 ==> r.index == s.index - 1 && AtRest(r) && SameExceptPage(s, r)
    ensures s.index <= 0 ==> r == s
    ensures Valid(s) ==> Valid(r)
  {
    if s.index > 0 then Reposition(s.(index := s.index - 1)) else s
  }

  /** Outside a drag, the next button is going to the following page, clamped. */
  lemma NextIsGoToFollowing(s: Carousel)
    requires Valid(s) && !s.dragging
    ensures Next(s) == GoTo(s, s.index + 1)
  {
    CanAdvanceBeforeLast(s);
  }

  /** Outside a drag, the previous button is going to the preceding page, clamped. */
  lemma PrevIsGoToPreceding(s: Carousel)
    requires Valid(s) && !s.dragging
    ensures Prev(s) == GoTo(s, s.index - 1)
  {
  }

  /** Pressing next and then previous comes back to the very same state. */
  lemma PrevUndoesNext(s: Carousel)
    requires Valid(s) && !s.dragging && CanAdvance(s)
    ensures Prev(Next(s)) == s
  {
  }

  /** Pressing previous and then next comes back to the very same state. */
  lemma NextUndoesPrev(s: Carousel)
    requires Valid(s) && !s.dragging && s.index > 0
    ensures Next(Prev(s)) == s
  {
  }

  /** A click on dot `i`: that page becomes current. Dots exist only for reachable pages. */
  function DotClick(s: Carousel, i: int): (r: Carousel)
    requires 0 <= i < IndicatorCount(s)
    ensures r.index == i && InBounds(r) && AtRest(r) && SameExceptPage(s, r)
    ensures Layout(s) ==> Valid(r)
  {
    Reposition(s.(index := i))
  }

  /** Clicking dot `i` is going to page `i`: the clamp never has to act. */
  lemma DotClickIsGoTo(s: Carousel, i: int)
    requires 0 <= i < IndicatorCount(s)
    ensures DotClick(s, i) == GoTo(s, i)
  {
  }

  /**
   * The resize handler at viewport width `width`, after which a card plus gap
   * measures `step`: the visible count is recomputed from the table and, when
   * the current page would now run past the last card, the index snaps to the
   * last page. The deferred re-render is taken to happen at once.
   */
  function Resize(s: Carousel, width: int, step: Length): (r: Carousel)
    ensures r.slidesToShow == SlidesToShow(s.config, width) && r.width == width && r.step == step
    ensures 0 <= s.index ==> InBounds(r) && r.index <= s.index
    ensures 0 <= s.index <= MaxIndex(r) ==> r.index == s.index
    ensures 0 <= s.index && MaxIndex(r) < s.index ==> r.index == MaxIndex(r)
    ensures AtRest(r)
    ensures r.(width := s.width, step := s.step, slidesToShow := s.slidesToShow) == s.(index := r.index, currentTranslate := r.currentTranslate, prevTranslate := r.prevTranslate)
    ensures Layout(s) ==> Valid(r)
  {
    var shown := SlidesToShow(s.config, width);
    var index := if s.index + shown > s.slideCount then Max(0, s.slideCount - shown) else s.index;
    Reposition(s.(width := width, step := step, slidesToShow := shown, index := index))
  }

  /**
   * A resize is going to the current page, clamped, in the layout for the new
   * width: the same reference behaviour as the buttons and dots.
   */
  lemma ResizeIsGoTo(s: Carousel, width: int, step: Length)
    requires Valid(s)
    ensures Resize(s, width, step)
         == GoTo(s.(width := width, step := step, slidesToShow := SlidesToShow(s.config, width)), s.index)
  {
  }

  /** After a resize the page is the old one clamped into the new range of pages. */
  lemma ResizeClampsPage(s: Carousel, width: int, step: Length)
    requires Valid(s)
    ensures Resize(s, width, step).index == Clamp(s.index, 0, MaxIndex(Resize(s, width, step)))
  {
  }
}

=== FILE: slider_state.dfy ===
/**
 * The state one carousel section keeps (the `let` variables of `setupSlider`),
 * the invariant every handler preserves, and the view that
 * `updateSliderPosition` renders from it.
 */
module SliderState {
  import opened Breakpoints

  /** A layout length in CSS pixels (card width plus gap); never negative. */
  type Length = r: real | 0.0 <= r

  datatype Carousel = Carousel(
    config: Config,        // the section's breakpoint table
    slideCount: nat,       // slides.length, fixed at setup
    width: int,            // window.innerWidth at the last (re)layout
    step: Length,          // stepWidth(): first card's width plus the gap
    slidesToShow: int,
    index: int,            // currentIndex
    pointerDown: bool,     // isPointerDown
    dragging: bool,        // isDragging: horizontal intent confirmed
    hasMoved: bool,
    startX: real,
    startY: real,
    currentTranslate: real,
    prevTranslate: real)

  function Max(a: int, b: int): int {
    if a < b then b else a
  }

  /** The last page: the index at which the final card is the last one visible. */
  function MaxIndex(s: Carousel): int {
    Max(0, s.slideCount - s.slidesToShow)
  }

  /** The guard of the next button and of a leftward swipe. */
  predicate CanAdvance(s: Carousel) {
    s.index + s.slidesToShow < s.slideCount
  }

  predicate InBounds(s: Carousel) {
    0 <= s.index <= MaxIndex(s)
  }

  /** The track offset at which page `s.index` is aligned. */
  function Offset(s: Carousel): real {
    -(s.index as real) * s.step
  }

  /** Everything but the track position: the page and the gesture flags are consistent. */
  predicate Layout(s: Carousel) {
    && s.slideCount > 0
    && s.slidesToShow == SlidesToShow(s.config, s.width)
    && InBounds(s)
    && (s.dragging ==> s.pointerDown && s.hasMoved)
  }

  /** The track rests at the current page, or follows the pointer from it during a drag. */
  predicate Track(s: Carousel) {
    && s.prevTranslate == Offset(s)
    && (!s.dragging ==> s.currentTranslate == s.prevTranslate)
  }

  predicate Valid(s: Carousel) {
    Layout(s) && Track(s)
  }

  /** Both translates sit exactly at the current page's offset, drag or not. */
  predicate AtRest(s: Carousel) {
    s.currentTranslate == s.prevTranslate == Offset(s)
  }

  /** On an in-bounds page, the advance guard holds exactly before the last page. */
  lemma CanAdvanceBeforeLast(s: Carousel)
    requires InBounds(s)
    ensures CanAdvance(s) <==> s.index < MaxIndex(s)
  {
  }

  /**
   * updateSliderPosition, state part: both translates move to the current page;
   * the rest of the state is untouched.
   */
  function Reposition(s: Carousel): (r: Carousel)
    ensures AtRest(r)
    ensures r.(currentTranslate := s.currentTranslate, prevTranslate := s.prevTranslate) == s
    ensures Layout(s) ==> Valid(r)
  {
    s.(currentTranslate := Offset(s), prevTranslate := Offset(s))
  }

  /**
   * createIndicators: how many dots there are. One per reachable page, and
   * none at all when there is only one page.
   */
  function IndicatorCount(s: Carousel): (n: nat)
    ensures n == (if MaxIndex(s) == 0 then 0 else MaxIndex(s) + 1)
  {
    var k := s.slideCount - s.slidesToShow + 1;
    if k <= 1 then 0 else k
  }

  /** updateIndicators: whether each dot carries the `active` class. */
  function Dots(s: Carousel): (dots: seq<bool>)
    ensures |dots| == IndicatorCount(s)
    ensures InBounds(s) && |dots| > 0 ==> s.index < |dots| && dots[s.index]
    ensures forall k :: 0 <= k < |dots| && dots[k] ==> k == s.index
  {
    seq(IndicatorCount(s), k => k == s.index)
  }

  /** What the DOM shows: the track's transform, the dots and the buttons' disabled flags. */
  datatype View = View(transform: real, dots: seq<bool>, prevDisabled: bool, nextDisabled: bool)

  /**
   * The DOM writes of updateSliderPosition: the transform follows the track,
   * previous is disabled on page 0 only, next exactly when no later card is
   * hidden, which on an in-bounds page is exactly the last page.
   */
  function Render(s: Carousel): (v: View)
    ensures v.transform == s.currentTranslate && v.dots == Dots(s)
    ensures v.prevDisabled <==> s.index == 0
    ensures v.nextDisabled <==> s.index + s.slidesToShow >= s.slideCount
    ensures InBounds(s) ==> (v.nextDisabled <==> s.index == MaxIndex(s))
  {
    View(s.currentTranslate, Dots(s), s.index == 0, !CanAdvance(s))
  }

  /** Every dot stands for a page the carousel can show, and every page has a dot when there are any. */
  lemma DotsAreReachablePages(s: Carousel, k: int)
    requires IndicatorCount(s) > 0
    ensures 0 <= k < IndicatorCount(s) <==> 0 <= k <= MaxIndex(s)
  {
  }

  /** Exactly the current page's dot is active; with no dots nothing is. */
  lemma ExactlyOneActiveDot(s: Carousel)
    requires InBounds(s)
    ensures IndicatorCount(s) > 0 ==> s.index < |Render(s).dots| && Render(s).dots[s.index]
    ensures forall k :: 0 <= k < |Render(s).dots| && Render(s).dots[k] ==> k == s.index
  {
  }

  /**
   * In a valid state the rendered view agrees with the page: the previous
   * button is disabled exactly on the first page, the next button exactly on
   * the last one, and outside a drag the transform is the page's offset.
   */
  lemma RenderMatchesPage(s: Carousel)
    requires Valid(s)
    ensures Render(s).prevDisabled <==> s.index == 0
    ensures Render(s).nextDisabled <==> s.index == MaxIndex(s)
    ensures !s.dragging ==> Render(s).transform == -(s.index as real) * s.step
    ensures s.dragging ==> Render(s).transform == Offset(s) + (s.currentTranslate - s.prevTranslate)
  {
    CanAdvanceBeforeLast(s);
  }
}
